=== FILE: README.md ===
# Flat vector store: `VectorTable`, its queries, and the flat indexes

A Dafny model of the storage and selection core of `latus`, a flat
(exhaustive) vector similarity search library written in Rust.

`VectorTable` stores fixed-dimension vectors. New vectors go into a loose
buffer. With chunking on, every full run of `CHUNK_SIZE` (4096) loose vectors
is sealed into a row-major block. There are three query routines:

- a scalar top-k over the loose buffer, using a min-max heap;
- a batched top-k over the sealed blocks plus a temporary block built from
  the loose buffer;
- a scalar "bottom-k" over the loose buffer, using a binary heap.

Two facades wrap the table: `IndexFlatL2` (bottom-k, L2 distance) and
`IndexFlatHP` (top-k, half-plane distance). `PostingList` and
`InvertedIndex` are append-only secondary structures.

The facades pass the free functions `l2_distance` and `half_plane_distance`
(`src/primitives/distances.rs:15,28`) where the table methods take a
`&dyn Distance` (`src/primitives/vector_table.rs:87,159`). In the source
shown, only the structs `L2`, `InnerProduct` and `HalfPlane` implement
`Distance`, so as written the facades do not match the table's signature.
The model reads each facade's argument as a `Distance` whose pairwise
score is that function. Nothing observable depends on the difference: the
scores are abstract, and the half-plane height checks are the same in
`half_plane_distance` and in `HalfPlane::vector_dist`.

How the model is built:

- **Scores.** The float metric is replaced by an arbitrary pairwise score
  into `int` (`Distances.Distance`). The batched form is that score mapped
  over the rows of a block.
- **Heaps.** A heap's contents are a strictly descending sequence of
  `(score, id)` pairs. It is ordered like a Rust tuple: by score, then by id.
- **Panics.** `assert!` failures (dimension check, half-plane height check)
  become `Err` values of `Errors.Result`.
- **Table invariant.** `VectorTable.Valid()` holds what `new` establishes
  and every insert keeps:
  - each vector has length `dim`;
  - each block is `CHUNK_SIZE x dim`;
  - with chunking on, fewer than `CHUNK_SIZE` vectors are loose;
  - with chunking off, there are no blocks.

  The buffer and block fields are private, so only `new`/`insert`/
  `insert_many` change the stored vectors; the insert operations and the
  batched query take `Valid()` as a precondition (the scalar queries need
  none). `dim` and `chunking` are public fields,
  though (and so is each facade's `table`): a caller can rewrite them and
  reach a table outside `Valid()`. Such tables are not modelled (see
  "Left out").
- **Stored sequence.** `Table.History(t)` is every stored vector in global-id
  order: the block rows, then the loose buffer.

Behaviour modelled as the code has it (apart from the limits listed under
"Left out"), including these points a
reader might not expect:

- The scalar paths (`top_k_by_metric`, `bottom_k_by_metric`) scan only the
  loose buffer and use buffer positions as ids. Sealed blocks are invisible
  to them (`FlatHP.ChunkedQuerySeesOnlyTail`).
- `bottom_k_by_metric` never truncates to `k`. It returns every loose vector,
  highest score first, equal scores by ascending position. For the L2 index
  this puts the farthest vector first.
- On equal scores, top-k keeps the later position, because `(score, pos)` is
  compared as a tuple.
- `matrix_top_k_by_metric` returns descending order even when `asc` keeps
  the smallest `k`.
- The half-plane check rejects only a negative height (`>= 0`, "Half plane
  dimension is negative"), so a height of exactly zero is accepted.

## Model

| member | source | states |
|---|---|---|
| `Matrices.FromRows` | src/primitives/vector_table.rs:73-75 | the reshape of n flattened dim-length vectors is an n x dim block; the `unwrap` cannot fail |
| `Matrices.RowsOfFromRows` | src/primitives/vector_table.rs:62-76 | flatten then reshape round trip: row i of the block built from vs is vs[i] |
| `Matrices.FromRowsOfRows` | src/primitives/vector_table.rs:62-76 | reshape then flatten round trip: rebuilding a block from its rows gives the same block |
| `Table.New` | src/primitives/vector_table.rs:26-33 | a new table has the given dim and chunking flag, satisfies the invariant, and stores nothing (no loose vectors, no blocks) |
| `Table.CreateChunk` | src/primitives/vector_table.rs:62-76 | for n <= loose count, returns an n x dim block whose rows are the first n loose vectors; with drain those n leave the buffer, without drain the table is unchanged |
| `Table.SealOne` | src/primitives/vector_table.rs:55-58 | one sealing step moves the first chunk-size loose vectors into a new last block, keeps earlier blocks and keeps the stored sequence |
| `Table.Condense` | src/primitives/vector_table.rs:54-60 | after condensing fewer than chunk-size vectors are loose, earlier blocks are untouched, new blocks are chunk-size x dim, and blocks-then-loose is still the same sequence in the same order |
| `Table.Insert` | src/primitives/vector_table.rs:35-41 | fails with DimensionMismatch exactly when the length differs from dim; otherwise the invariant holds, the stored sequence gains v at the end, blocks are only appended, and without chunking v is appended to the loose buffer |
| `Table.InsertMany` | src/primitives/vector_table.rs:43-52 | fails exactly when some vector in the batch has the wrong length (nothing stored); otherwise the stored sequence is the old one followed by the batch in order, and without chunking the loose buffer is old buffer plus batch with no blocks |
| `TableProperties.BlockHoldsItsIdRange` | src/primitives/vector_table.rs:54-60 | block j holds exactly the vectors with global ids j*CHUNK_SIZE up to (j+1)*CHUNK_SIZE, in insertion order |
| `TableProperties.LooseIsHistoryTail` | src/primitives/vector_table.rs:38-40 | with chunking, the loose buffer is the tail after the last full block: count mod CHUNK_SIZE vectors, with count div CHUNK_SIZE blocks |
| `TableProperties.SealingInvariant` | src/primitives/vector_table.rs:49-51 | after N*CHUNK_SIZE stored vectors in a chunking table, the loose buffer is empty and there are exactly N blocks |
| `TableProperties.StateDeterminedByHistory` | src/primitives/vector_table.rs:54-60 | two valid tables with equal dim, chunking and stored sequence are equal: sealing is deterministic in what was inserted |
| `TableProperties.InsertManyIsRepeatedInsert` | src/primitives/vector_table.rs:35-52 | insert_many of a batch has the same result as inserting its vectors one at a time, including which blocks are sealed and which error is raised |
| `Selection.Insert` | src/primitives/vector_table.rs:100 | a heap push keeps the contents sorted and adds exactly the pushed element |
| `Selection.PushPopMin` | src/primitives/vector_table.rs:98 | push_pop_min keeps the size and drops exactly the minimum of the old contents plus the pushed element: every element dropped is below every element kept |
| `Selection.PushPopMax` | src/primitives/vector_table.rs:115-117 | push_pop_max keeps the size and drops exactly the maximum of the old contents plus the pushed element: every element dropped is above every element kept |
| `Selection.Select` | src/primitives/vector_table.rs:92-102 | the bounded loop (push below k, otherwise push-pop) ends with min(k, n) candidates, sorted descending, each one of the streamed candidates |
| `Selection.SortDesc` | src/primitives/vector_table.rs:103 | the full descending sort of the candidates is a permutation of them in strictly descending order |
| `Selection.SelectIsSortedSlice` | src/primitives/vector_table.rs:92-103 | the streaming selection equals the first min(k, n) entries of the full descending sort when keeping the largest, and its last min(k, n) entries when keeping the smallest |
| `Selection.SelectTopK` | src/primitives/vector_table.rs:97-103 | keeping the largest: the result holds min(k, n) candidates, every candidate left out is smaller than every one kept, descending |
| `Selection.SelectBottomK` | src/primitives/vector_table.rs:114-119 | keeping the smallest: the result holds min(k, n) candidates, every candidate left out is larger than every one kept, still in descending order |
| `Queries.TopKByMetric` | src/primitives/vector_table.rs:85-104 | scans only the loose buffer; returns the min(k, loose count) largest (score, position) pairs, strictly descending; each pair's score is the score of the loose vector at that position; k = 0 gives an empty result |
| `Queries.TopKIsSortedPrefix` | src/primitives/vector_table.rs:85-104 | the scalar top-k result equals the first min(k, n) entries of the fully sorted loose candidates |
| `Queries.QueryBlocks` | src/primitives/vector_table.rs:121-134 | the blocks scanned by the batched path are the sealed blocks followed by exactly one temporary block when the loose buffer is non-empty and none otherwise; the temporary block's rows are the loose buffer, so together the rows are exactly the stored sequence |
| `Queries.BlockCandidatesAreRanks` | src/primitives/vector_table.rs:137-151 | when every block but the last has CHUNK_SIZE rows, the id chunk_index*CHUNK_SIZE+row numbers the rows consecutively from 0 |
| `Queries.MatrixIdsAreInsertionRanks` | src/primitives/vector_table.rs:137-151 | on a valid table every batched candidate's id is its global insertion rank and its score is the score of that stored vector |
| `Queries.MatrixTopKByMetric` | src/primitives/vector_table.rs:106-155 | covers every stored vector; returns min(k, total) pairs: the smallest when asc, the largest otherwise, always in descending order |
| `Queries.MatrixTopKIsSortedSlice` | src/primitives/vector_table.rs:106-155 | the batched result is the bottom or top min(k, total) slice of the fully sorted candidates of the whole stored sequence |
| `Queries.MatrixAgreesWithScalarWhenUnchunked` | src/primitives/vector_table.rs:85-155 | without chunking, the batched path with asc false returns exactly the scalar top-k result |
| `Queries.ChunkedMatrixMatchesUnchunkedScalar` | src/primitives/vector_table.rs:85-155 | for a chunking table and an unchunked table storing the same sequence, the batched top-k of the first equals the scalar top-k of the second |
| `Queries.UnwrapOrder` | src/primitives/vector_table.rs:171-174 | the unwrapped ascending drain lists higher scores first and equal scores by ascending position |
| `Queries.UnwrapComplete` | src/primitives/vector_table.rs:164-174 | every loose vector's (score, position) pair appears in the bottom-k output |
| `Queries.UnwrapSound` | src/primitives/vector_table.rs:164-174 | every bottom-k output pair names a loose position and carries that vector's score |
| `Queries.BottomKByMetric` | src/primitives/vector_table.rs:157-175 | ignores k: returns exactly one pair per loose vector, with the right score, ordered by non-increasing score with ties by ascending position |
| `Scenarios.TopKTieScenario` | src/primitives/vector_table.rs:94-103 | three loose vectors with equal scores and k = 2: the result is positions 2 then 1 |
| `Scenarios.BottomKTieScenario` | src/primitives/vector_table.rs:164-174 | three loose vectors with equal scores and k = 2: all three come back, positions 0, 1, 2 |
| `PostingLists.Insert` | src/primitives/posting_list.rs:13-15 | the id is appended at the end; earlier ids are unchanged; length grows by one and a repeated id is counted again |
| `PostingLists.InsertMany` | src/primitives/posting_list.rs:17-19 | the slice is appended at the end in order; earlier ids are unchanged; length grows by the slice length |
| `PostingLists.InsertManyIsRepeatedInsert` | src/primitives/posting_list.rs:13-19 | insert_many(ids) equals insert applied to each id in turn |
| `PostingLists.InsertManyMatchesInserts` | src/primitives/posting_list.rs:27-38 | insert_many([1, 2, 3]) on a new list equals insert(1), insert(2), insert(3) |
| `InvertedIndexes.Insert` | src/primitives/inverted_index.rs:17-23 | the key set gains the key; an absent key gets the list [value], a present key's list gets value appended; every other key's list is unchanged |
| `InvertedIndexes.InsertMany` | src/primitives/inverted_index.rs:25-31 | the key set gains the key; the values are appended in order to the key's list (created when absent); every other key's list is unchanged |
| `InvertedIndexes.InsertManyIsRepeatedInsert` | src/primitives/inverted_index.rs:17-31 | insert_many(key, values) equals insert(key, v) for each value in turn, both for a present key and for a new key with at least one value (where the first insert creates the list) |
| `InvertedIndexes.FreshInsertManyHoldsIds` | src/primitives/inverted_index.rs:38-50 | on a new index, insert_many(key, ids) leaves exactly the key, holding exactly ids |
| `FlatL2.New` | src/indexes/index_flat_l2.rs:11-15 | a new L2 index holds a valid empty table of that dim with chunking off |
| `FlatL2.Insert` | src/indexes/index_flat_l2.rs:17-19 | rejects exactly the wrong-length vector, with DimensionMismatch; otherwise the vector joins the loose buffer and chunking stays off |
| `FlatL2.InsertMany` | src/indexes/index_flat_l2.rs:21-23 | rejects the whole batch, with DimensionMismatch, exactly when one vector has the wrong length; otherwise the batch joins the loose buffer in order |
| `FlatL2.Query` | src/indexes/index_flat_l2.rs:25-27 | the bottom-k query with the L2 score: one pair per stored vector, with its score, non-increasing score, ties by ascending id |
| `FlatL2.QueryCoversAllInserted` | src/indexes/index_flat_l2.rs:11-27 | since the index never chunks, a query returns a pair for every vector ever inserted, under its insertion rank |
| `FlatL2.QueryMany` | src/indexes/index_flat_l2.rs:29-35 | returns one result per query vector, in input order, the i-th being the query of the i-th vector |
| `FlatHP.New` | src/indexes/index_flat_hp.rs:14-18 | a new half-plane index holds a valid empty table with exactly the given dim and chunking |
| `FlatHP.Insert` | src/indexes/index_flat_hp.rs:20-22 | rejects exactly the wrong-length vector, with DimensionMismatch; otherwise the stored sequence gains the vector, settings unchanged |
| `FlatHP.InsertMany` | src/indexes/index_flat_hp.rs:24-26 | rejects the whole batch, with DimensionMismatch, exactly when one vector has the wrong length; otherwise the stored sequence gains the batch in order |
| `FlatHP.Query` | src/indexes/index_flat_hp.rs:28-30 | for any `k` whose heap allocation succeeds, fails exactly when some loose vector or the query lacks a non-negative last coordinate while the buffer is non-empty; otherwise returns the top min(k, loose count) pairs of the loose buffer, descending |
| `FlatHP.ChunkedQuerySeesOnlyTail` | src/indexes/index_flat_hp.rs:28-30 | with chunking, a successful query returns min(k, count mod CHUNK_SIZE) pairs, none right after a block is sealed |
| `FlatHP.QueryMany` | src/indexes/index_flat_hp.rs:37-43 | fails exactly when one of the queries fails; otherwise returns one result per query vector in input order, the i-th being the query of the i-th vector |

## Left out

- Tables outside `Valid()` are not modelled. A caller can reach them by writing the public `dim` or `chunking` fields. Examples: turning `chunking` on after 4096 or more unchunked inserts, which makes the next insert seal one or more blocks at once; or changing `dim`, which makes `matrix_top_k_by_metric` panic in `from_shape_vec(...).unwrap()` whenever loose vectors are present (`src/primitives/vector_table.rs:73-75`; with an empty buffer the empty reshape succeeds and the temporary block is not pushed, `src/primitives/vector_table.rs:132`).
- Vector components are real numbers, so a NaN height cannot be expressed. In the source, the `>= 0.` asserts reject a NaN height and panic (`src/primitives/distances.rs:38-39`); the model has no such input.
- The metric formulas are not modelled: L2, inner product and the hyperbolic half-plane distance (`src/distances/*.rs`, `src/primitives/distances.rs`, `src/primitives/vector.rs`). They are f32 arithmetic with `sqrt`/`ln`. A score is any function into `int`. Only the half-plane height `assert!`s are kept, as the failure case of `FlatHP.Query`.
- Float ordering is not modelled: `OrderedFloat` NaN placement and the hand-written `Metric::cmp`. Scores are integers, so there is no NaN.
- The batched score is defined as the pairwise score applied to each row. Each real metric has its own `matrix_dist` formula. That the two agree, and within what float tolerance, is not modelled.
- The table never checks the query vector's length. What a metric does on mismatched lengths (an ndarray broadcast or panic) lies inside the abstract score and is not modelled. The same holds for the half-plane dot products.
- The heaps' internal structure and the O(n log k) cost are left out. Only their observable contents and drain order are modelled.
- `usize` overflow of `chunk_index * CHUNK_SIZE` is not modelled. Ids are unbounded naturals.
- FlatHP.Query: `k` is an unbounded natural. In the source, `MinMaxHeap::with_capacity(k)` (`src/primitives/vector_table.rs:92`) runs before any scoring. It panics with a capacity overflow when 16·k exceeds `isize::MAX` (e.g. `k = usize::MAX`), even on an empty table, and it can abort on allocation failure for smaller but huge `k`. The model has no such failure, so its "fails exactly when" holds only for `k` whose allocation succeeds.
- Queries.TopKByMetric: the same `with_capacity(k)` panic or abort for huge `k` (`src/primitives/vector_table.rs:92`) is not modelled.
- Queries.MatrixTopKByMetric: the same `with_capacity(k)` panic or abort for huge `k` (`src/primitives/vector_table.rs:114`) is not modelled.
- Queries.BottomKByMetric: the same `BinaryHeap::with_capacity(k)` panic or abort for huge `k` (`src/primitives/vector_table.rs:164`) is not modelled, although `k` otherwise has no effect.
- FlatL2.Query: inherits the unmodelled `BinaryHeap::with_capacity(k)` failure of `Queries.BottomKByMetric`.
- `src/indexes/index_flat_ip.rs` is not part of this model. It is written against an older table API (`VectorTable::new()` with no arguments, and a `traits` module that is absent).
- `src/primitives/filter.rs` is not part of this model. It is a thin wrapper over an external bitmap library.
- Parquet I/O (`src/io/parquet.rs`), the benchmarks and `random_vector` (randomness) are not part of this model.
- `PostingList::new` and `InvertedIndex::new` have no contracts of their own. Their behaviour (empty list, no keys) is stated through `InvertedIndexes.FreshInsertManyHoldsIds` and `PostingLists.InsertManyMatchesInserts`.

=== FILE: distances.dfy ===
/** The `Distance` capability: a pairwise score and a batched score over the
    rows of a block. Float formulas are abstracted into an arbitrary pairwise
    function into a totally ordered type (`int`). */
module Distances {
  import opened Matrices

  datatype Distance = Distance(vectorDist: (Vector, Vector) -> int)
  {
    /** The batched form: one score per row of `b`, each the pairwise score of
        `a` against that row. */
    function MatrixDist(a: Vector, b: Matrix): seq<int>
    {
      seq(b.rows, i requires 0 <= i < b.rows => vectorDist(a, Row(b, i)))
    }
  }
}

=== FILE: errors.dfy ===
/** Failure values of the vector store. The Rust code signals both of these
    conditions with `assert!`; the model returns them as values instead. */
module Errors {

  datatype Error =
    /** A vector's length differs from the table's `dim` (`check_dims`). */
    | DimensionMismatch
    /** A half-plane operand has no height coordinate or a negative one. */
    | InvalidMetricPrecondition

  datatype Result<+T> = Ok(value: T) | Err(error: Error)
}

=== FILE: index_flat_hp.dfy ===
/** `IndexFlatHP`: a table (chunking as chosen) queried through the scalar
    top-k path with the half-plane distance. The formula is abstracted: `hp`
    stands for it; only its `assert!`s on the height coordinate are kept. */
module FlatHP {
  import opened Errors
  import opened Matrices
  import opened Distances
  import opened Selection
  import opened Table
  import opened TableProperties
  import opened Queries

  datatype IndexFlatHP = IndexFlatHP(table: VectorTable)

  /** `new(dim, chunking)`: an empty table with exactly these settings. */
  function New(dim: nat, chunking: bool): (r: IndexFlatHP)
    ensures r.table.Valid() && r.table.dim == dim && r.table.chunking == chunking
    ensures History(r.table) == []
  {
    IndexFlatHP(Table.New(dim, chunking))
  }

  /** `insert`: exactly the table's insert. */
  function Insert(idx: IndexFlatHP, v: Vector): (r: Result<IndexFlatHP>)
    requires idx.table.Valid()
    ensures r.Err? <==> |v| != idx.table.dim
    ensures r.Err? ==> r.error == DimensionMismatch
    ensures r.Ok? ==> r.value.table.Valid() && r.value.table.dim == idx.table.dim
    ensures r.Ok? ==> r.value.table.chunking == idx.table.chunking
    ensures r.Ok? ==> History(r.value.table) == History(idx.table) + [v]
  {
    match Table.Insert(idx.table, v)
    case Err(e) => Err(e)
    case Ok(t) => Ok(IndexFlatHP(t))
  }

  /** `insert_many`: exactly the table's insert_many, all or nothing. */
  function InsertMany(idx: IndexFlatHP, vs: seq<Vector>): (r: Result<IndexFlatHP>)
    requires idx.table.Valid()
    ensures r.Err? <==> exists i :: 0 <= i < |vs| && |vs[i]| != idx.table.dim
    ensures r.Err? ==> r.error == DimensionMismatch
    ensures r.Ok? ==> r.value.table.Valid() && r.value.table.dim == idx.table.dim
    ensures r.Ok? ==> r.value.table.chunking == idx.table.chunking
    ensures r.Ok? ==> History(r.value.table) == History(idx.table) + vs
  {
    match Table.InsertMany(idx.table, vs)
    case Err(e) => Err(e)
    case Ok(t) => Ok(IndexFlatHP(t))
  }

  /** The half-plane score's own checks: the vector has a last ("height")
      coordinate and it is not negative. */
  predicate HeightOk(v: Vector) {
    |v| > 0 && v[|v| - 1] >= 0.0
  }

  /** `query(v, k)`: `top_k_by_metric` with the half-plane score. The score
      is computed against every loose vector, so the query fails if any of
      them, or the query vector, breaks the height check; with an empty loose
      buffer nothing is scored and nothing can fail. */
  function Query(idx: IndexFlatHP, hp: Distance, v: Vector, k: nat): (r: Result<seq<Pair>>)
    ensures r.Err? <==> (|idx.table.vectors| > 0 &&
                         (!HeightOk(v) || exists pos :: 0 <= pos < |idx.table.vectors| && !HeightOk(idx.table.vectors[pos])))
    ensures r.Err? ==> r.error == InvalidMetricPrecondition
    ensures r.Ok? ==> IsTopK(r.value, Candidates(hp, v, idx.table.vectors, 0), k)
  {
    var loose := idx.table.vectors;
    if |loose| > 0 && (!HeightOk(v) || exists pos :: 0 <= pos < |loose| && !HeightOk(loose[pos])) then
      Err(InvalidMetricPrecondition)
    else
      Ok(TopKByMetric(idx.table, hp, v, k))
  }

  /** With chunking on, a query sees only the vectors inserted since the last
      sealed block: `Min(k, |History| % ChunkSize)` results, so none at all
      right after a block is sealed. */
  lemma ChunkedQuerySeesOnlyTail(idx: IndexFlatHP, hp: Distance, v: Vector, k: nat)
    requires idx.table.Valid() && idx.table.chunking
    requires Query(idx, hp, v, k).Ok?
    ensures |Query(idx, hp, v, k).value| == Min(k, |History(idx.table)| % ChunkSize)
    ensures |History(idx.table)| % ChunkSize == 0 ==> Query(idx, hp, v, k).value == []
  {
    LooseIsHistoryTail(idx.table);
  }

  /** `query_many`: the queries in input order; the first failing query
      aborts the whole call. */
  method QueryMany(idx: IndexFlatHP, hp: Distance, vs: seq<Vector>, k: nat) returns (r: Result<seq<seq<Pair>>>)
    ensures r.Err? <==> exists i :: 0 <= i < |vs| && Query(idx, hp, vs[i], k).Err?
    ensures r.Err? ==> r.error == InvalidMetricPrecondition
    ensures r.Ok? ==> |r.value| == |vs|
    ensures r.Ok? ==> forall i :: 0 <= i < |vs| ==> r.value[i] == Query(idx, hp, vs[i], k).value
  {
    var results: seq<seq<Pair>> := [];
    for i := 0 to |vs|
      invariant |results| == i
      invariant forall j :: 0 <= j < i ==> Query(idx, hp, vs[j], k).Ok? && results[j] == Query(idx, hp, vs[j], k).value
    {
      var one := Query(idx, hp, vs[i], k);
      if one.Err? {
        return Err(one.error);
      }
      results := results + [one.value];
    }
    return Ok(results);
  }
}

=== FILE: index_flat_l2.dfy ===
/** `IndexFlatL2`: a table without chunking, queried through the scalar
    bottom-k path with the L2 distance. The L2 formula itself is abstracted:
    `l2` stands for it. */
module FlatL2 {
  import opened Errors
  import opened Matrices
  import opened Distances
  import opened Selection
  import opened Table
  import opened Queries

  datatype IndexFlatL2 = IndexFlatL2(table: VectorTable)
  {
    /** What `new` establishes: a valid table that never chunks. */
    predicate Valid() {
      table.Valid() && !table.chunking
    }
  }

  /** `new(dim)`: an empty table of that dimension, chunking off. */
  function New(dim: nat): (r: IndexFlatL2)
    ensures r.Valid() && r.table.dim == dim
    ensures History(r.table) == []
  {
    IndexFlatL2(Table.New(dim, false))
  }

  /** `insert`: the table's insert; without chunking the vector simply joins
      the loose buffer. */
  function Insert(idx: IndexFlatL2, v: Vector): (r: Result<IndexFlatL2>)
    requires idx.Valid()
    ensures r.Err? <==> |v| != idx.table.dim
    ensures r.Err? ==> r.error == DimensionMismatch
    ensures r.Ok? ==> r.value.Valid() && r.value.table.dim == idx.table.dim
    ensures r.Ok? ==> r.value.table.vectors == idx.table.vectors + [v]
  {
    match Table.Insert(idx.table, v)
    case Err(e) => Err(e)
    case Ok(t) => Ok(IndexFlatL2(t))
  }

  /** `insert_many`: the table's insert_many, all or nothing. */
  function InsertMany(idx: IndexFlatL2, vs: seq<Vector>): (r: Result<IndexFlatL2>)
    requires idx.Valid()
    ensures r.Err? <==> exists i :: 0 <= i < |vs| && |vs[i]| != idx.table.dim
    ensures r.Err? ==> r.error == DimensionMismatch
    ensures r.Ok? ==> r.value.Valid() && r.value.table.dim == idx.table.dim
    ensures r.Ok? ==> r.value.table.vectors == idx.table.vectors + vs
  {
    match Table.InsertMany(idx.table, vs)
    case Err(e) => Err(e)
    case Ok(t) => Ok(IndexFlatL2(t))
  }

  /** `query(v, k)`: `bottom_k_by_metric` with the L2 score. Every stored
      vector comes back, highest score first, ties by ascending id. */
  function Query(idx: IndexFlatL2, l2: Distance, v: Vector, k: nat): (r: seq<Pair>)
    ensures |r| == |idx.table.vectors|
    ensures forall id :: 0 <= id < |idx.table.vectors| ==> Pair(l2.vectorDist(v, idx.table.vectors[id]), id) in r
    ensures forall x :: x in r ==> x.id < |idx.table.vectors| && x.score == l2.vectorDist(v, idx.table.vectors[x.id])
    ensures forall i, j :: 0 <= i < j < |r| ==> BottomOrder(r[i], r[j])
  {
    BottomKByMetric(idx.table, l2, v, k)
  }

  /** Since the index never chunks, a query covers everything ever inserted,
      under its insertion rank. */
  lemma QueryCoversAllInserted(idx: IndexFlatL2, l2: Distance, v: Vector, k: nat)
    requires idx.Valid()
    ensures |Query(idx, l2, v, k)| == |History(idx.table)|
    ensures forall id :: 0 <= id < |History(idx.table)| ==>
      Pair(l2.vectorDist(v, History(idx.table)[id]), id) in Query(idx, l2, v, k)
  {
    assert History(idx.table) == idx.table.vectors;
  }

  /** The loop of `query_many`: `answer` applied to each input, results
      pushed in input order. */
  method AnswerEach(answer: Vector -> seq<Pair>, vs: seq<Vector>) returns (results: seq<seq<Pair>>)
    ensures |results| == |vs|
    ensures forall i :: 0 <= i < |vs| ==> results[i] == answer(vs[i])
  {
    results := [];
    for i := 0 to |vs|
      invariant |results| == i
      invariant forall j :: 0 <= j < i ==> results[j] == answer(vs[j])
    {
      results := results + [answer(vs[i])];
    }
  }

  /** `query_many`: one independent query per input vector, in input order. */
  method QueryMany(idx: IndexFlatL2, l2: Distance, vs: seq<Vector>, k: nat) returns (results: seq<seq<Pair>>)
    ensures |results| == |vs|
    ensures forall i :: 0 <= i < |vs| ==> results[i] == Query(idx, l2, vs[i], k)
  {
    results := AnswerEach(v => Query(idx, l2, v, k), vs);
  }
}

=== FILE: inverted_index.dfy ===
/** `InvertedIndex`: a map from key to posting list, a list being created the
    first time its key is used. */
module InvertedIndexes {
  import opened PostingLists

  datatype InvertedIndex = InvertedIndex(postings: map<u32, PostingList>)

  function New(): InvertedIndex {
    InvertedIndex(map[])
  }

  /** The key's posting list, or a new empty one when the key is absent. */
  function ListFor(idx: InvertedIndex, key: u32): PostingList {
    if key in idx.postings then idx.postings[key] else PostingLists.New()
  }

  /** `insert(key, value)`: `value` is appended to the key's list, which is
      created as `[value]` when the key is new; no other key changes. */
  function Insert(idx: InvertedIndex, key: u32, value: u32): (r: InvertedIndex)
    ensures r.postings.Keys == idx.postings.Keys + {key}
    ensures key !in idx.postings ==> r.postings[key].ids == [value]
    ensures key in idx.postings ==> r.postings[key].ids == idx.postings[key].ids + [value]
    ensures forall other :: other in idx.postings && other != key ==> r.postings[other] == idx.postings[other]
  {
    InvertedIndex(idx.postings[key := PostingLists.Insert(ListFor(idx, key), value)])
  }

  /** `insert_many(key, values)`: the values are appended, in order, to the
      key's list, created when the key is new; no other key changes. */
  function InsertMany(idx: InvertedIndex, key: u32, values: seq<u32>): (r: InvertedIndex)
    ensures r.postings.Keys == idx.postings.Keys + {key}
    ensures key !in idx.postings ==> r.postings[key].ids == values
    ensures key in idx.postings ==> r.postings[key].ids == idx.postings[key].ids + values
    ensures forall other :: other in idx.postings && other != key ==> r.postings[other] == idx.postings[other]
  {
    var list := PostingLists.InsertMany(ListFor(idx, key), values);
    assert list.ids == ListFor(idx, key).ids + values;
    InvertedIndex(idx.postings[key := list])
  }

  /** Inserting the values under one key, one `insert` at a time. */
  function InsertEach(idx: InvertedIndex, key: u32, values: seq<u32>): InvertedIndex
    decreases |values|
  {
    if |values| == 0 then idx else InsertEach(Insert(idx, key, values[0]), key, values[1..])
  }

  /** One `insert` followed by `insert_many` of the rest is `insert_many` of
      the whole batch. */
  lemma InsertThenInsertMany(idx: InvertedIndex, key: u32, v: u32, rest: seq<u32>)
    ensures InsertMany(Insert(idx, key, v), key, rest) == InsertMany(idx, key, [v] + rest)
  {
    var before := ListFor(idx, key).ids;
    var full := PostingList(before + [v] + rest);
    var next := Insert(idx, key, v);
    assert next.postings == idx.postings[key := PostingList(before + [v])];
    assert ListFor(next, key).ids + rest == full.ids;
    assert ListFor(idx, key).ids + ([v] + rest) == full.ids;
    assert InsertMany(next, key, rest).postings == next.postings[key := full];
    assert InsertMany(idx, key, [v] + rest).postings == idx.postings[key := full];
    assert next.postings[key := full] == idx.postings[key := full];
  }

  /** `insert_many` is `insert` of each value in turn, whether the key is
      already present or is created by the first value. (On an absent key
      with no values they differ: `insert_many` still creates an empty list,
      while no `insert` happens.) */
  lemma {:induction false} InsertManyIsRepeatedInsert(idx: InvertedIndex, key: u32, values: seq<u32>)
    requires key in idx.postings || |values| > 0
    ensures InsertMany(idx, key, values) == InsertEach(idx, key, values)
    decreases |values|
  {
    if |values| == 0 {
      assert idx.postings[key].ids + values == idx.postings[key].ids;
      assert idx.postings[key := idx.postings[key]] == idx.postings;
    } else {
      InsertManyIsRepeatedInsert(Insert(idx, key, values[0]), key, values[1..]);
      InsertThenInsertMany(idx, key, values[0], values[1..]);
      assert [values[0]] + values[1..] == values;
    }
  }

  /** The unit test's case: on a new index, `insert_many(key, ids)` leaves
      exactly `ids` under `key`. */
  lemma FreshInsertManyHoldsIds(key: u32, ids: seq<u32>)
    ensures key in InsertMany(New(), key, ids).postings
    ensures InsertMany(New(), key, ids).postings[key].ids == ids
    ensures InsertMany(New(), key, ids).postings.Keys == {key}
  {
  }
}

=== FILE: matrices.dfy ===
/** Vectors and row-major matrices (`Array1<f32>` / `Array2<f32>` in the
    source). Floats are modelled as reals; nothing here does arithmetic on them. */
module Matrices {

  type Vector = seq<real>

  datatype Shaped = Shaped(rows: nat, cols: nat, data: seq<real>)

  /** A row-major block: exactly the shape check `Matrix::from_shape_vec` makes. */
  type Matrix = m: Shaped | |m.data| == m.rows * m.cols witness Shaped(0, 0, [])

  predicate AllHaveDim(vs: seq<Vector>, dim: nat) {
    forall i :: 0 <= i < |vs| ==> |vs[i]| == dim
  }

  /** Multiplication by a natural number is monotone. */
  lemma {:induction false} MulMonotone(a: nat, b: nat, c: nat)
    requires a <= b
    ensures a * c <= b * c
    decreases b - a
  {
    if a < b {
      MulMonotone(a + 1, b, c);
      assert (a + 1) * c == a * c + c;
    }
  }

  lemma RowInBounds(i: nat, rows: nat, cols: nat)
    requires i < rows
    ensures i * cols + cols <= rows * cols
  {
    MulMonotone(i + 1, rows, cols);
    assert (i + 1) * cols == i * cols + cols;
  }

  /** Row `i` of a block: the slice `data[i*cols .. (i+1)*cols]`. */
  function Row(m: Matrix, i: nat): (r: Vector)
    requires i < m.rows
    ensures |r| == m.cols
  {
    RowInBounds(i, m.rows, m.cols);
    m.data[i * m.cols .. i * m.cols + m.cols]
  }

  function Rows(m: Matrix): (r: seq<Vector>)
    ensures |r| == m.rows
    ensures AllHaveDim(r, m.cols)
  {
    seq(m.rows, i requires 0 <= i < m.rows => Row(m, i))
  }

  /** Concatenation of the vectors, in order (`iter().flatten().collect()`). */
  function Flatten(vs: seq<Vector>): seq<real>
  {
    if |vs| == 0 then [] else Flatten(vs[..|vs| - 1]) + vs[|vs| - 1]
  }

  lemma {:induction false} FlattenLength(vs: seq<Vector>, dim: nat)
    requires AllHaveDim(vs, dim)
    ensures |Flatten(vs)| == |vs| * dim
  {
    if |vs| > 0 {
      FlattenLength(vs[..|vs| - 1], dim);
      assert |Flatten(vs)| == (|vs| - 1) * dim + dim;
    }
  }

  /** The block built by `create_chunk`: flatten the rows, then reshape to
      `(|vs|, dim)`. The reshape cannot fail because every row has length `dim`. */
  function FromRows(vs: seq<Vector>, dim: nat): (m: Matrix)
    requires AllHaveDim(vs, dim)
    ensures m.rows == |vs| && m.cols == dim
  {
    FlattenLength(vs, dim);
    Shaped(|vs|, dim, Flatten(vs))
  }

  /** Reshape after flatten gives back every row: row `i` of the block is `vs[i]`. */
  lemma {:induction false} RowsOfFromRows(vs: seq<Vector>, dim: nat)
    requires AllHaveDim(vs, dim)
    ensures Rows(FromRows(vs, dim)) == vs
  {
    var m := FromRows(vs, dim);
    forall i | 0 <= i < |vs|
      ensures Row(m, i) == vs[i]
    {
      FlattenSlice(vs, dim, i);
    }
  }

  lemma {:induction false} FlattenSlice(vs: seq<Vector>, dim: nat, i: nat)
    requires AllHaveDim(vs, dim) && i < |vs|
    ensures |Flatten(vs)| == |vs| * dim
    ensures i * dim + dim <= |vs| * dim
    ensures Flatten(vs)[i * dim .. i * dim + dim] == vs[i]
  {
    FlattenLength(vs, dim);
    RowInBounds(i, |vs|, dim);
    var n := |vs|;
    var front := vs[..n - 1];
    FlattenLength(front, dim);
    assert Flatten(vs) == Flatten(front) + vs[n - 1];
    if i < n - 1 {
      FlattenSlice(front, dim, i);
      RowInBounds(i, n - 1, dim);
      assert Flatten(vs)[i * dim .. i * dim + dim] == Flatten(front)[i * dim .. i * dim + dim];
    } else {
      assert i * dim == |Flatten(front)|;
    }
  }

  /** Flatten after reshape gives back the data: a block is determined by its rows. */
  lemma FromRowsOfRows(m: Matrix)
    ensures FromRows(Rows(m), m.cols) == m
  {
    FlattenRowsPrefix(m, m.rows, m.rows * m.cols);
    assert Rows(m)[..m.rows] == Rows(m);
    assert m.data[..m.rows * m.cols] == m.data;
  }

  /** Row `j - 1` ends where row `j` starts. */
  lemma PredecessorRowStart(j: nat, cols: nat)
    requires j > 0
    ensures (j - 1) * cols + cols == j * cols
    ensures cols <= j * cols
  {
    calc {
      (j - 1) * cols + cols;
      == (j - 1 + 1) * cols;
      == j * cols;
    }
    MulMonotone(1, j, cols);
  }

  /** Flattening row `j - 1`, which starts at `lo`, appends that row's slice
      of the data. */
  lemma AppendRow(m: Matrix, j: nat, lo: nat)
    requires 0 < j <= m.rows && lo == (j - 1) * m.cols
    ensures lo + m.cols <= |m.data|
    ensures Flatten(Rows(m)[..j]) == Flatten(Rows(m)[..j - 1]) + m.data[lo .. lo + m.cols]
  {
    RowInBounds(j - 1, m.rows, m.cols);
    var rs := Rows(m)[..j];
    assert rs[..j - 1] == Rows(m)[..j - 1];
  }

  /** Adjacent slices of a prefix join into the longer prefix. */
  lemma JoinSlices(data: seq<real>, lo: nat, hi: nat)
    requires lo <= hi <= |data|
    ensures data[..lo] + data[lo..hi] == data[..hi]
  {
  }

  /** The first `j` rows, which end at `end`, flatten to the data's prefix
      of that length. */
  lemma {:induction false} FlattenRowsPrefix(m: Matrix, j: nat, end: nat)
    requires j <= m.rows && end == j * m.cols
    ensures end <= |m.data|
    ensures Flatten(Rows(m)[..j]) == m.data[..end]
  {
    if j == 0 {
      assert Rows(m)[..0] == [];
    } else {
      PredecessorRowStart(j, m.cols);
      var lo := end - m.cols;
      FlattenRowsPrefix(m, j - 1, lo);
      AppendRow(m, j, lo);
      JoinSlices(m.data, lo, end);
    }
  }
}

=== FILE: posting_list.dfy ===
/** `PostingList`: an append-only list of `u32` ids. */
module PostingLists {

  newtype u32 = x: int | 0 <= x < 0x1_0000_0000

  datatype PostingList = PostingList(ids: seq<u32>)

  function New(): PostingList {
    PostingList([])
  }

  /** `insert`: `id` goes at the end; earlier ids are untouched and a
      repeated id is kept, not merged. */
  function Insert(p: PostingList, id: u32): (r: PostingList)
    ensures |r.ids| == |p.ids| + 1
    ensures r.ids[..|p.ids|] == p.ids && r.ids[|p.ids|] == id
    ensures multiset(r.ids) == multiset(p.ids) + multiset{id}
  {
    PostingList(p.ids + [id])
  }

  /** `insert_many`: the whole slice, in order, goes at the end. */
  function InsertMany(p: PostingList, ids: seq<u32>): (r: PostingList)
    ensures |r.ids| == |p.ids| + |ids|
    ensures r.ids[..|p.ids|] == p.ids && r.ids[|p.ids|..] == ids
  {
    PostingList(p.ids + ids)
  }

  /** Inserting the ids one `insert` at a time. */
  function InsertEach(p: PostingList, ids: seq<u32>): PostingList
    decreases |ids|
  {
    if |ids| == 0 then p else InsertEach(Insert(p, ids[0]), ids[1..])
  }

  /** `insert_many(ids)` is `insert` applied to each id in turn. */
  lemma {:induction false} InsertManyIsRepeatedInsert(p: PostingList, ids: seq<u32>)
    ensures InsertMany(p, ids) == InsertEach(p, ids)
    decreases |ids|
  {
    if |ids| == 0 {
      assert p.ids + ids == p.ids;
    } else {
      InsertManyIsRepeatedInsert(Insert(p, ids[0]), ids[1..]);
      assert p.ids + ids == (p.ids + [ids[0]]) + ids[1..];
    }
  }

  /** The unit test's case: `insert_many([1, 2, 3])` on a new list equals
      `insert(1); insert(2); insert(3)`. */
  lemma InsertManyMatchesInserts()
    ensures InsertMany(New(), [1, 2, 3]) == Insert(Insert(Insert(New(), 1), 2), 3)
  {
    var ids: seq<u32> := [1, 2, 3];
    InsertManyIsRepeatedInsert(New(), ids);
    assert ids[1..] == [2, 3] && ids[1..][1..] == [3];
  }
}

=== FILE: scenarios.dfy ===
/** How the scalar query paths break ties: three stored vectors that all get
    the same score (as three unit vectors do under L2 from the origin). */
module Scenarios {
  import opened Matrices
  import opened Distances
  import opened Selection
  import opened Table
  import opened Queries

  lemma TopTwoOfThree(r: seq<Pair>, s: int)
    requires IsTopK(r, [Pair(s, 0), Pair(s, 1), Pair(s, 2)], 2)
    ensures r == [Pair(s, 2), Pair(s, 1)]
  {
    var c := [Pair(s, 0), Pair(s, 1), Pair(s, 2)];
    assert r[0] in r && r[1] in r;
    assert Pair(s, 2) in c && Pair(s, 1) in c;
    assert r[0].id <= 2 && r[1].id <= 2;
    assert Pair(s, 2) in r;
    assert r[0] == Pair(s, 2);
    assert Pair(s, 1) in r;
  }

  /** Top-k with `k = 2` keeps the two largest `(score, pos)` pairs, so on
      equal scores the later positions win, listed descending. */
  lemma TopKTieScenario(t: VectorTable, d: Distance, q: Vector, s: int)
    requires |t.vectors| == 3
    requires forall pos :: 0 <= pos < 3 ==> d.vectorDist(q, t.vectors[pos]) == s
    ensures TopKByMetric(t, d, q, 2) == [Pair(s, 2), Pair(s, 1)]
  {
    var c := Candidates(d, q, t.vectors, 0);
    assert c == [Pair(s, 0), Pair(s, 1), Pair(s, 2)];
    TopTwoOfThree(TopKByMetric(t, d, q, 2), s);
  }

  /** Bottom-k ignores `k = 2` and lists all three, equal scores by
      ascending position. */
  lemma BottomKTieScenario(t: VectorTable, d: Distance, q: Vector, s: int)
    requires |t.vectors| == 3
    requires forall pos :: 0 <= pos < 3 ==> d.vectorDist(q, t.vectors[pos]) == s
    ensures BottomKByMetric(t, d, q, 2) == [Pair(s, 0), Pair(s, 1), Pair(s, 2)]
  {
    var r := BottomKByMetric(t, d, q, 2);
    assert Pair(s, 0) in r && Pair(s, 1) in r && Pair(s, 2) in r;
    assert forall x :: x in r ==> x.score == s && x.id < 3;
    assert r[0].id < r[1].id < r[2].id by {
      assert BottomOrder(r[0], r[1]) && BottomOrder(r[1], r[2]);
    }
  }
}

=== FILE: selection.dfy ===
/** Bounded selection over scored candidates. The heaps of the source
    (`MinMaxHeap`, `BinaryHeap`) are modelled by their observable behaviour:
    their contents kept as a strictly descending sequence. */
module Selection {

  /** A scored candidate `(metric, position)`; compared as a Rust tuple. */
  datatype Pair = Pair(score: int, id: nat)

  /** Lexicographic order on `(score, id)`: the derived tuple ordering. */
  predicate Lt(a: Pair, b: Pair) {
    a.score < b.score || (a.score == b.score && a.id < b.id)
  }

  /** Strictly descending, the order of `into_vec_desc`. */
  predicate Desc(s: seq<Pair>) {
    forall i, j :: 0 <= i < j < |s| ==> Lt(s[j], s[i])
  }

  predicate Distinct(c: seq<Pair>) {
    forall i, j :: 0 <= i < j < |c| ==> c[i] != c[j]
  }

  function Min(a: nat, b: nat): nat {
    if a <= b then a else b
  }

  /** The result holds the `Min(k, |c|)` largest candidates of `c`, descending. */
  predicate IsTopK(r: seq<Pair>, c: seq<Pair>, k: nat) {
    && Desc(r)
    && |r| == Min(k, |c|)
    && (forall x :: x in r ==> x in c)
    && (forall y, x :: y in c && y !in r && x in r ==> Lt(y, x))
  }

  /** The result holds the `Min(k, |c|)` smallest candidates of `c`, descending. */
  predicate IsBottomK(r: seq<Pair>, c: seq<Pair>, k: nat) {
    && Desc(r)
    && |r| == Min(k, |c|)
    && (forall x :: x in r ==> x in c)
    && (forall y, x :: y in c && y !in r && x in r ==> Lt(x, y))
  }

  /** Heap push: `e` joins the contents, which stay sorted. */
  function Insert(s: seq<Pair>, e: Pair): (r: seq<Pair>)
    requires Desc(s) && e !in s
    ensures Desc(r) && |r| == |s| + 1
    ensures forall x :: x in r <==> x == e || x in s
  {
    if |s| == 0 then [e]
    else if Lt(s[0], e) then [e] + s
    else
      var t := Insert(s[1..], e);
      assert forall i :: 0 <= i < |t| ==> Lt(t[i], s[0]) by {
        forall i | 0 <= i < |t|
          ensures Lt(t[i], s[0])
        {
          assert t[i] in t;
          if t[i] != e {
            var j :| 0 <= j < |s[1..]| && s[1..][j] == t[i];
            assert s[j + 1] == t[i];
          }
        }
      }
      [s[0]] + t
  }

  /** `MinMaxHeap::push_pop_min`: push `e`, then remove the smallest element. */
  function PushPopMin(h: seq<Pair>, e: Pair): (r: seq<Pair>)
    requires Desc(h) && e !in h
    ensures Desc(r) && |r| == |h|
    ensures forall x :: x in r ==> x in h || x == e
    ensures forall x :: x in h && x !in r ==> Lt(x, e)
    ensures e !in r ==> forall x :: x in h ==> x in r
    ensures |r| > 0 ==> forall x :: (x in h || x == e) && x !in r ==> Lt(x, r[|r| - 1])
  {
    var s := Insert(h, e);
    assert forall i :: 0 <= i < |h| ==> Lt(s[|h|], s[i]);
    s[..|h|]
  }

  /** `MinMaxHeap::push_pop_max`: push `e`, then remove the largest element. */
  function PushPopMax(h: seq<Pair>, e: Pair): (r: seq<Pair>)
    requires Desc(h) && e !in h
    ensures Desc(r) && |r| == |h|
    ensures forall x :: x in r ==> x in h || x == e
    ensures forall x :: x in h && x !in r ==> Lt(e, x)
    ensures e !in r ==> forall x :: x in h ==> x in r
    ensures |r| > 0 ==> forall x :: (x in h || x == e) && x !in r ==> Lt(r[0], x)
  {
    var s := Insert(h, e);
    assert forall i :: 1 <= i < |s| ==> Lt(s[i], s[0]);
    s[1..]
  }

  /** One iteration of the selection loop: push while below capacity `k`,
      otherwise push and evict the worst kept element. */
  function Step(h: seq<Pair>, e: Pair, k: nat, keepLargest: bool): seq<Pair>
    requires Desc(h) && e !in h
  {
    if |h| >= k then
      (if keepLargest then PushPopMin(h, e) else PushPopMax(h, e))
    else
      Insert(h, e)
  }

  /** The selection loop run over the candidate stream `c`, in order. */
  function Select(c: seq<Pair>, k: nat, keepLargest: bool): (r: seq<Pair>)
    requires Distinct(c)
    ensures Desc(r) && |r| == Min(k, |c|)
    ensures forall x :: x in r ==> x in c
  {
    if |c| == 0 then []
    else
      var front := c[..|c| - 1];
      assert Distinct(front);
      var h := Select(front, k, keepLargest);
      var e := c[|c| - 1];
      assert e !in front;
      Step(h, e, k, keepLargest)
  }

  /** Reference: all candidates, sorted descending (insertion sort). */
  function SortDesc(c: seq<Pair>): (r: seq<Pair>)
    requires Distinct(c)
    ensures Desc(r) && |r| == |c|
    ensures forall x :: x in r <==> x in c
  {
    if |c| == 0 then []
    else
      var front := c[..|c| - 1];
      assert Distinct(front);
      assert c == front + [c[|c| - 1]];
      Insert(SortDesc(front), c[|c| - 1])
  }

  /** Pushing into a prefix and evicting the minimum keeps the same prefix of
      the full insertion. */
  lemma {:induction false} InsertPrefix(s: seq<Pair>, e: Pair, j: nat)
    requires Desc(s) && e !in s && j <= |s|
    ensures Insert(s[..j], e)[..j] == Insert(s, e)[..j]
  {
    if j > 0 {
      assert s[..j][0] == s[0];
      if !Lt(s[0], e) {
        assert s[..j][1..] == s[1..][..j - 1];
        InsertPrefix(s[1..], e, j - 1);
      }
    }
  }

  /** Pushing into a suffix and evicting the maximum keeps the same suffix of
      the full insertion. */
  lemma {:induction false} InsertSuffix(s: seq<Pair>, e: Pair, j: nat)
    requires Desc(s) && e !in s && j <= |s|
    ensures Insert(s[j..], e)[1..] == Insert(s, e)[j + 1..]
  {
    if j > 0 {
      if Lt(s[0], e) {
        if j < |s| {
          assert s[j..][0] == s[j];
          assert Lt(s[j], s[0]);
        }
      } else {
        assert s[1..][j - 1..] == s[j..];
        InsertSuffix(s[1..], e, j - 1);
      }
    }
  }

  /** A full step on the top `k` of a sorted sequence keeps the top `k` of
      the sequence with the new element inserted. */
  lemma StepKeepsTopSlice(s: seq<Pair>, e: Pair, k: nat)
    requires Desc(s) && e !in s && k <= |s|
    ensures Desc(s[..k]) && e !in s[..k]
    ensures Step(s[..k], e, k, true) == Insert(s, e)[..k]
  {
    InsertPrefix(s, e, k);
  }

  /** A full step on the bottom `|s| - j` of a sorted sequence keeps the
      bottom `|s| - j` of the sequence with the new element inserted. */
  lemma StepKeepsBottomSlice(s: seq<Pair>, e: Pair, j: nat)
    requires Desc(s) && e !in s && j <= |s|
    ensures Desc(s[j..]) && e !in s[j..]
    ensures Step(s[j..], e, |s| - j, false) == Insert(s, e)[j + 1..]
  {
    InsertSuffix(s, e, j);
  }

  /** The slice of a sorted sequence the selection keeps: the top `k` when
      keeping the largest, the bottom `k` otherwise (all of it when shorter). */
  function Kept(s: seq<Pair>, k: nat, keepLargest: bool): seq<Pair> {
    if keepLargest then s[..Min(k, |s|)] else s[|s| - Min(k, |s|)..]
  }

  /** One selection step on the kept slice of a sorted sequence gives the
      kept slice of the sequence with the new element inserted. */
  lemma StepKeepsSlice(s: seq<Pair>, e: Pair, k: nat, keepLargest: bool)
    requires Desc(s) && e !in s
    ensures Desc(Kept(s, k, keepLargest)) && e !in Kept(s, k, keepLargest)
    ensures Step(Kept(s, k, keepLargest), e, k, keepLargest) == Kept(Insert(s, e), k, keepLargest)
  {
    if |s| >= k {
      if keepLargest {
        StepKeepsTopSlice(s, e, k);
      } else {
        StepKeepsBottomSlice(s, e, |s| - k);
      }
    } else {
      assert s[..|s|] == s && s[0..] == s;
      var t := Insert(s, e);
      assert t[..|t|] == t && t[0..] == t;
    }
  }

  /** The bounded streaming selection equals a slice of the fully sorted
      candidate list: its top slice when keeping the largest, its bottom
      slice when keeping the smallest. */
  lemma {:induction false} SelectIsSortedSlice(c: seq<Pair>, k: nat, keepLargest: bool)
    requires Distinct(c)
    ensures keepLargest ==> Select(c, k, keepLargest) == SortDesc(c)[..Min(k, |c|)]
    ensures !keepLargest ==> Select(c, k, keepLargest) == SortDesc(c)[|c| - Min(k, |c|)..]
  {
    if |c| > 0 {
      var front := c[..|c| - 1];
      var e := c[|c| - 1];
      assert Distinct(front);
      assert e !in front;
      SelectIsSortedSlice(front, k, keepLargest);
      StepKeepsSlice(SortDesc(front), e, k, keepLargest);
    }
  }

  /** `SelectIsSortedSlice` for a result `r` known to be a selection over
      `n` candidates, with the slice chosen by `smallest`. */
  lemma SelectionIsSlice(c: seq<Pair>, k: nat, smallest: bool, r: seq<Pair>, n: nat)
    requires Distinct(c) && r == Select(c, k, !smallest) && n == |c|
    ensures var s := SortDesc(c);
            var m := Min(k, n);
            r == if smallest then s[|s| - m..] else s[..m]
  {
    SelectIsSortedSlice(c, k, !smallest);
  }

  lemma SelectTopK(c: seq<Pair>, k: nat)
    requires Distinct(c)
    ensures IsTopK(Select(c, k, true), c, k)
  {
    SelectIsSortedSlice(c, k, true);
    var s := SortDesc(c);
    var m := Min(k, |c|);
    var r := Select(c, k, true);
    forall y, x | y in c && y !in r && x in r
      ensures Lt(y, x)
    {
      var i :| 0 <= i < |s| && s[i] == y;
      var j :| 0 <= j < m && r[j] == x;
      assert s[j] == x;
    }
  }

  lemma SelectBottomK(c: seq<Pair>, k: nat)
    requires Distinct(c)
    ensures IsBottomK(Select(c, k, false), c, k)
  {
    SelectIsSortedSlice(c, k, false);
    var s := SortDesc(c);
    var m := Min(k, |c|);
    var lo := |c| - m;
    var r := Select(c, k, false);
    forall y, x | y in c && y !in r && x in r
      ensures Lt(x, y)
    {
      var i :| 0 <= i < |s| && s[i] == y;
      var j :| 0 <= j < m && r[j] == x;
      assert s[lo + j] == x;
    }
  }
}

=== FILE: table_properties.dfy ===
/** Properties of `VectorTable` storage that relate several operations: the
    layout of global ids over blocks, and that the stored state is determined
    by what was inserted. */
module TableProperties {
  import opened Errors
  import opened Matrices
  import opened Table

  lemma {:induction false} AllRowsBlock(ms: seq<Matrix>, j: nat)
    requires forall i :: 0 <= i < |ms| ==> ms[i].rows == ChunkSize
    requires j < |ms|
    ensures |AllRows(ms)| == |ms| * ChunkSize
    ensures AllRows(ms)[j * ChunkSize .. j * ChunkSize + ChunkSize] == Rows(ms[j])
  {
    AllRowsLength(ms);
    var n := |ms|;
    var front := ms[..n - 1];
    AllRowsLength(front);
    assert AllRows(ms) == AllRows(front) + Rows(ms[n - 1]);
    if j < n - 1 {
      AllRowsBlock(front, j);
    }
  }

  /** Block `j` holds exactly the vectors with global ids
      `[j*ChunkSize, (j+1)*ChunkSize)`, in insertion order. */
  lemma BlockHoldsItsIdRange(t: VectorTable, j: nat)
    requires t.Valid() && j < |t.chunks|
    ensures (j + 1) * ChunkSize <= |History(t)|
    ensures Rows(t.chunks[j]) == History(t)[j * ChunkSize .. (j + 1) * ChunkSize]
  {
    AllRowsBlock(t.chunks, j);
  }

  /** With chunking, the loose buffer is the tail of the stored sequence that
      starts after the last full block, so it has `|History| % ChunkSize`
      entries and there are `|History| / ChunkSize` blocks. */
  lemma LooseIsHistoryTail(t: VectorTable)
    requires t.Valid() && t.chunking
    ensures |History(t)| == |t.chunks| * ChunkSize + |t.vectors|
    ensures t.vectors == History(t)[|t.chunks| * ChunkSize..]
    ensures |t.chunks| == |History(t)| / ChunkSize
    ensures |t.vectors| == |History(t)| % ChunkSize
  {
    AllRowsLength(t.chunks);
    var n := |History(t)|;
    var c := |t.chunks|;
    var v := |t.vectors|;
    assert n == c * ChunkSize + v && 0 <= v < ChunkSize;
    DivModUnique(n, c, v);
  }

  lemma DivModUnique(n: nat, q: nat, r: nat)
    requires n == q * ChunkSize + r && r < ChunkSize
    ensures q == n / ChunkSize && r == n % ChunkSize
  {
  }

  /** After `N * ChunkSize` vectors in a chunking table, the loose buffer is
      empty and there are exactly `N` blocks. */
  lemma SealingInvariant(t: VectorTable, blocks: nat)
    requires t.Valid() && t.chunking && |History(t)| == blocks * ChunkSize
    ensures t.vectors == [] && |t.chunks| == blocks
  {
    LooseIsHistoryTail(t);
    DivModUnique(|History(t)|, blocks, 0);
  }

  lemma SplitAt<T>(x1: seq<T>, y1: seq<T>, x2: seq<T>, y2: seq<T>)
    requires x1 + y1 == x2 + y2 && |x1| == |x2|
    ensures x1 == x2 && y1 == y2
  {
    assert x1 == (x1 + y1)[..|x1|];
    assert y1 == (x1 + y1)[|x1|..];
  }

  lemma {:induction false} SameRowsSameBlocks(a: seq<Matrix>, b: seq<Matrix>, dim: nat)
    requires |a| == |b|
    requires forall i :: 0 <= i < |a| ==> a[i].rows == ChunkSize && a[i].cols == dim
    requires forall i :: 0 <= i < |b| ==> b[i].rows == ChunkSize && b[i].cols == dim
    requires AllRows(a) == AllRows(b)
    ensures a == b
  {
    if |a| > 0 {
      var n := |a|;
      var pa, pb := a[..n - 1], b[..n - 1];
      AllRowsLength(pa);
      AllRowsLength(pb);
      assert AllRows(pa) + Rows(a[n - 1]) == AllRows(pb) + Rows(b[n - 1]);
      SplitAt(AllRows(pa), Rows(a[n - 1]), AllRows(pb), Rows(b[n - 1]));
      SameRowsSameBlocks(pa, pb, dim);
      FromRowsOfRows(a[n - 1]);
      FromRowsOfRows(b[n - 1]);
      assert a == pa + [a[n - 1]];
      assert b == pb + [b[n - 1]];
    }
  }

  /** The layout is canonical: two valid tables with the same `dim`,
      `chunking` flag and stored sequence are equal. */
  lemma StateDeterminedByHistory(t1: VectorTable, t2: VectorTable)
    requires t1.Valid() && t2.Valid()
    requires t1.dim == t2.dim && t1.chunking == t2.chunking
    requires History(t1) == History(t2)
    ensures t1 == t2
  {
    if t1.chunking {
      LooseIsHistoryTail(t1);
      LooseIsHistoryTail(t2);
      var h := History(t1);
      AllRowsLength(t1.chunks);
      AllRowsLength(t2.chunks);
      assert AllRows(t1.chunks) == h[..|t1.chunks| * ChunkSize];
      assert AllRows(t2.chunks) == h[..|t2.chunks| * ChunkSize];
      SameRowsSameBlocks(t1.chunks, t2.chunks, t1.dim);
    } else {
      assert History(t1) == t1.vectors && History(t2) == t2.vectors;
    }
  }

  /** Inserting the vectors one `insert` at a time, stopping at the first
      rejection. */
  function InsertEach(t: VectorTable, vs: seq<Vector>): (r: Result<VectorTable>)
    requires t.Valid()
    decreases |vs|
  {
    if |vs| == 0 then Ok(t)
    else
      match Insert(t, vs[0])
      case Err(e) => Err(e)
      case Ok(t') => InsertEach(t', vs[1..])
  }

  lemma AllHaveDimTail(vs: seq<Vector>, dim: nat)
    requires |vs| > 0 && |vs[0]| == dim
    ensures AllHaveDim(vs, dim) <==> AllHaveDim(vs[1..], dim)
  {
    if AllHaveDim(vs[1..], dim) {
      forall i | 0 <= i < |vs|
        ensures |vs[i]| == dim
      {
        if i > 0 {
          assert vs[i] == vs[1..][i - 1];
        }
      }
    }
  }

  /** Two well-formed batches that leave the same stored sequence, applied
      to tables with the same settings, give the same table. */
  lemma SameEndState(t: VectorTable, u: VectorTable, a: seq<Vector>, b: seq<Vector>)
    requires t.Valid() && u.Valid() && t.dim == u.dim && t.chunking == u.chunking
    requires AllHaveDim(a, t.dim) && AllHaveDim(b, t.dim)
    requires History(t) + a == History(u) + b
    ensures InsertMany(t, a) == InsertMany(u, b)
  {
    StateDeterminedByHistory(InsertMany(t, a).value, InsertMany(u, b).value);
  }

  /** A batch whose first vector is well-formed does what inserting that
      vector and then the rest of the batch does. */
  lemma BatchAfterFirst(t: VectorTable, vs: seq<Vector>)
    requires t.Valid() && |vs| > 0 && |vs[0]| == t.dim
    ensures Insert(t, vs[0]).Ok?
    ensures InsertMany(t, vs) == InsertMany(Insert(t, vs[0]).value, vs[1..])
  {
    var t1 := Insert(t, vs[0]).value;
    var rest := vs[1..];
    AllHaveDimTail(vs, t.dim);
    if AllHaveDim(vs, t.dim) {
      assert [vs[0]] + rest == vs;
      assert History(t1) + rest == History(t) + vs;
      SameEndState(t, t1, vs, rest);
    } else {
      assert InsertMany(t, vs) == Err(DimensionMismatch);
      assert InsertMany(t1, rest) == Err(DimensionMismatch);
    }
  }

  /** `insert_many` has the same effect as inserting the vectors one at a
      time, including which blocks get sealed; it differs only in checking
      the whole batch before storing anything. */
  lemma {:induction false} InsertManyIsRepeatedInsert(t: VectorTable, vs: seq<Vector>)
    requires t.Valid()
    ensures InsertMany(t, vs) == InsertEach(t, vs)
    decreases |vs|
  {
    if |vs| > 0 {
      if |vs[0]| != t.dim {
        assert InsertMany(t, vs).Err?;
      } else {
        BatchAfterFirst(t, vs);
        InsertManyIsRepeatedInsert(Insert(t, vs[0]).value, vs[1..]);
      }
    } else {
      assert t.vectors + vs == t.vectors;
    }
  }
}

=== FILE: table_queries.dfy ===
/** The three query routines of `VectorTable`: scalar top-k over the loose
    buffer, batched top-k over blocks plus the loose buffer, and scalar
    "bottom-k" over the loose buffer. */
module Queries {
  import opened Matrices
  import opened Distances
  import opened Selection
  import opened Table

  /** The candidate `(score, base + i)` for each `vs[i]`, in order. */
  function Candidates(d: Distance, q: Vector, vs: seq<Vector>, base: nat): (c: seq<Pair>)
    ensures |c| == |vs| && Distinct(c)
  {
    seq(|vs|, i requires 0 <= i < |vs| => Pair(d.vectorDist(q, vs[i]), base + i))
  }

  lemma CandidatesAppend(d: Distance, q: Vector, a: seq<Vector>, b: seq<Vector>, base: nat)
    ensures Candidates(d, q, a + b, base) == Candidates(d, q, a, base) + Candidates(d, q, b, base + |a|)
  {
  }

  /** `top_k_by_metric`: only the loose buffer is scanned, positions in that
      buffer serve as ids, and the `Min(k, |loose|)` largest `(score, pos)`
      pairs come back in descending order. */
  function TopKByMetric(t: VectorTable, d: Distance, q: Vector, k: nat): (r: seq<Pair>)
    ensures IsTopK(r, Candidates(d, q, t.vectors, 0), k)
    ensures forall x :: x in r ==> x.id < |t.vectors| && x.score == d.vectorDist(q, t.vectors[x.id])
  {
    var c := Candidates(d, q, t.vectors, 0);
    SelectTopK(c, k);
    Select(c, k, true)
  }

  /** The scalar top-k result is the first `k` entries of the loose buffer's
      candidates sorted in full, descending. */
  lemma TopKIsSortedPrefix(t: VectorTable, d: Distance, q: Vector, k: nat)
    ensures TopKByMetric(t, d, q, k) == SortDesc(Candidates(d, q, t.vectors, 0))[..Min(k, |t.vectors|)]
  {
    SelectIsSortedSlice(Candidates(d, q, t.vectors, 0), k, true);
  }

  /** The candidates of one block: the batched scores, each paired with the
      block's first id plus the row offset. */
  function RowCandidates(d: Distance, q: Vector, m: Matrix, base: nat): (c: seq<Pair>)
    ensures c == Candidates(d, q, Rows(m), base)
  {
    var scores := d.MatrixDist(q, m);
    seq(m.rows, r requires 0 <= r < m.rows => Pair(scores[r], base + r))
  }

  /** Candidates of a list of blocks, block `j` starting at id `j * ChunkSize`. */
  function BlockCandidates(d: Distance, q: Vector, blocks: seq<Matrix>): seq<Pair>
  {
    if |blocks| == 0 then []
    else
      var n := |blocks|;
      BlockCandidates(d, q, blocks[..n - 1]) + RowCandidates(d, q, blocks[n - 1], (n - 1) * ChunkSize)
  }

  /** The blocks the batched query scans: the sealed blocks, then a temporary
      block of the loose buffer when that is non-empty. The temporary block
      is built without draining, so the table is not changed. */
  function QueryBlocks(t: VectorTable): (blocks: seq<Matrix>)
    requires AllHaveDim(t.vectors, t.dim)
    ensures AllRows(blocks) == History(t)
    ensures |t.chunks| <= |blocks| && blocks[..|t.chunks|] == t.chunks
    ensures |blocks| == |t.chunks| + (if |t.vectors| > 0 then 1 else 0)
  {
    var view := CreateChunk(t, |t.vectors|, false).0;
    var loose := CreateChunk(t, |t.vectors|, false).1;
    assert t.vectors[..|t.vectors|] == t.vectors;
    if |view.vectors| > 0 then
      AllRowsAppend(view.chunks, loose);
      assert (view.chunks + [loose])[..|t.chunks|] == t.chunks;
      view.chunks + [loose]
    else
      assert view.chunks[..|t.chunks|] == t.chunks;
      view.chunks
  }

  lemma {:induction false} BlockCandidatesAreRanks(d: Distance, q: Vector, blocks: seq<Matrix>)
    requires forall j :: 0 <= j < |blocks| - 1 ==> blocks[j].rows == ChunkSize
    ensures BlockCandidates(d, q, blocks) == Candidates(d, q, AllRows(blocks), 0)
  {
    if |blocks| > 0 {
      var n := |blocks|;
      var front := blocks[..n - 1];
      BlockCandidatesAreRanks(d, q, front);
      AllRowsLength(front);
      CandidatesAppend(d, q, AllRows(front), Rows(blocks[n - 1]), 0);
    }
  }

  /** The id the batched path gives a row, `chunk_index * ChunkSize + row`,
      is its global insertion rank: the batched candidates are exactly the
      stored sequence scored in order. */
  lemma MatrixIdsAreInsertionRanks(t: VectorTable, d: Distance, q: Vector)
    requires t.Valid()
    ensures BlockCandidates(d, q, QueryBlocks(t)) == Candidates(d, q, History(t), 0)
  {
    var blocks := QueryBlocks(t);
    forall j | 0 <= j < |blocks| - 1
      ensures blocks[j].rows == ChunkSize
    {
      assert blocks[j] == blocks[..|t.chunks|][j];
    }
    BlockCandidatesAreRanks(d, q, blocks);
  }

  /** `matrix_top_k_by_metric`: every stored vector is a candidate under its
      global id; the `Min(k, total)` smallest are kept when `asc`, the largest
      otherwise, and the result is in descending order either way. */
  function MatrixTopKByMetric(t: VectorTable, d: Distance, q: Vector, k: nat, asc: bool): (r: seq<Pair>)
    requires t.Valid()
    ensures !asc ==> IsTopK(r, Candidates(d, q, History(t), 0), k)
    ensures asc ==> IsBottomK(r, Candidates(d, q, History(t), 0), k)
    ensures forall x :: x in r ==> x.id < |History(t)| && x.score == d.vectorDist(q, History(t)[x.id])
  {
    var c := BlockCandidates(d, q, QueryBlocks(t));
    MatrixIdsAreInsertionRanks(t, d, q);
    SelectTopK(c, k);
    SelectBottomK(c, k);
    Select(c, k, !asc)
  }

  /** The batched path is the selection loop over the stored sequence scored
      under insertion ranks. */
  lemma MatrixIsSelect(t: VectorTable, d: Distance, q: Vector, k: nat, asc: bool)
    requires t.Valid()
    ensures MatrixTopKByMetric(t, d, q, k, asc) == Select(Candidates(d, q, History(t), 0), k, !asc)
  {
    MatrixIdsAreInsertionRanks(t, d, q);
  }

  /** Reference form of the batched path: a slice of the fully sorted
      candidates of everything stored, top slice or bottom slice. */
  lemma MatrixTopKIsSortedSlice(t: VectorTable, d: Distance, q: Vector, k: nat, asc: bool)
    requires t.Valid()
    ensures var s := SortDesc(Candidates(d, q, History(t), 0));
            var m := Min(k, |History(t)|);
            MatrixTopKByMetric(t, d, q, k, asc) == if asc then s[|s| - m..] else s[..m]
  {
    var c := Candidates(d, q, History(t), 0);
    var r := MatrixTopKByMetric(t, d, q, k, asc);
    MatrixIsSelect(t, d, q, k, asc);
    assert r == Select(c, k, !asc);
    SelectionIsSlice(c, k, asc, r, |c|);
  }

  /** Without chunking (so no sealed blocks), the batched path with `asc`
      false returns exactly what the scalar path returns. */
  lemma MatrixAgreesWithScalarWhenUnchunked(t: VectorTable, d: Distance, q: Vector, k: nat)
    requires t.Valid() && !t.chunking
    ensures MatrixTopKByMetric(t, d, q, k, false) == TopKByMetric(t, d, q, k)
  {
    MatrixIdsAreInsertionRanks(t, d, q);
    assert History(t) == t.vectors;
  }

  /** Sealing does not change what the batched path finds: on a chunking
      table it returns what the scalar path returns on an unchunked table
      holding the same vectors in the same order. */
  lemma ChunkedMatrixMatchesUnchunkedScalar(chunked: VectorTable, flat: VectorTable, d: Distance, q: Vector, k: nat)
    requires chunked.Valid() && flat.Valid() && !flat.chunking
    requires History(chunked) == History(flat)
    ensures MatrixTopKByMetric(chunked, d, q, k, false) == TopKByMetric(flat, d, q, k)
  {
    MatrixIdsAreInsertionRanks(chunked, d, q);
    assert History(flat) == flat.vectors;
  }

  /** The ascending order of `BinaryHeap<(Reverse<Metric>, usize)>`:
      higher score first, ties by lower position. */
  predicate BottomOrder(a: Pair, b: Pair) {
    a.score > b.score || (a.score == b.score && a.id < b.id)
  }

  /** The heap entries `(Reverse(score), pos)`, with `Reverse` written as
      negation of the score. */
  function ReversedKeys(t: VectorTable, d: Distance, q: Vector): (keys: seq<Pair>)
    ensures |keys| == |t.vectors| && Distinct(keys)
  {
    seq(|t.vectors|, pos requires 0 <= pos < |t.vectors| => Pair(-d.vectorDist(q, t.vectors[pos]), pos))
  }

  /** `into_sorted_vec` (ascending, so the reverse of the descending drain)
      followed by unwrapping `Reverse`. */
  function Unwrap(drained: seq<Pair>): (r: seq<Pair>)
    ensures |r| == |drained|
  {
    seq(|drained|, i requires 0 <= i < |drained| => Pair(-drained[|drained| - 1 - i].score, drained[|drained| - 1 - i].id))
  }

  lemma UnwrapOrder(drained: seq<Pair>)
    requires Desc(drained)
    ensures forall i, j :: 0 <= i < j < |drained| ==> BottomOrder(Unwrap(drained)[i], Unwrap(drained)[j])
  {
    var n := |drained|;
    forall i, j | 0 <= i < j < n
      ensures BottomOrder(Unwrap(drained)[i], Unwrap(drained)[j])
    {
      assert Lt(drained[n - 1 - i], drained[n - 1 - j]);
    }
  }

  lemma UnwrapComplete(t: VectorTable, d: Distance, q: Vector)
    ensures forall pos :: 0 <= pos < |t.vectors| ==>
      Pair(d.vectorDist(q, t.vectors[pos]), pos) in Unwrap(SortDesc(ReversedKeys(t, d, q)))
  {
    var keys := ReversedKeys(t, d, q);
    var drained := SortDesc(keys);
    var r := Unwrap(drained);
    var n := |t.vectors|;
    forall pos | 0 <= pos < n
      ensures Pair(d.vectorDist(q, t.vectors[pos]), pos) in r
    {
      assert keys[pos] in drained;
      var m :| 0 <= m < n && drained[m] == keys[pos];
      assert r[n - 1 - m] == Pair(d.vectorDist(q, t.vectors[pos]), pos);
    }
  }

  /** Unwrapping only negates the scores of the drained entries. */
  lemma UnwrapMembers(drained: seq<Pair>)
    ensures forall x :: x in Unwrap(drained) ==> Pair(-x.score, x.id) in drained
  {
    var r := Unwrap(drained);
    var n := |drained|;
    forall x | x in r
      ensures Pair(-x.score, x.id) in drained
    {
      var i :| 0 <= i < n && r[i] == x;
      assert drained[n - 1 - i] == Pair(-x.score, x.id);
    }
  }

  /** Each heap key names a loose position and carries its negated score. */
  lemma KeySound(t: VectorTable, d: Distance, q: Vector, y: Pair)
    requires y in ReversedKeys(t, d, q)
    ensures y.id < |t.vectors| && y.score == -d.vectorDist(q, t.vectors[y.id])
  {
    var keys := ReversedKeys(t, d, q);
    var pos :| 0 <= pos < |keys| && keys[pos] == y;
  }

  lemma UnwrapSound(t: VectorTable, d: Distance, q: Vector)
    ensures forall x :: x in Unwrap(SortDesc(ReversedKeys(t, d, q))) ==>
      x.id < |t.vectors| && x.score == d.vectorDist(q, t.vectors[x.id])
  {
    var keys := ReversedKeys(t, d, q);
    var drained := SortDesc(keys);
    UnwrapMembers(drained);
    forall x | x in Unwrap(drained)
      ensures x.id < |t.vectors| && x.score == d.vectorDist(q, t.vectors[x.id])
    {
      KeySound(t, d, q, Pair(-x.score, x.id));
    }
  }

  /** `bottom_k_by_metric`: every loose vector is pushed (`k` is only the
      heap's initial capacity), and the heap is drained by
      `into_sorted_vec` and unwrapped from `Reverse`: one pair per loose
      vector, scores non-increasing, equal scores by ascending position. */
  function BottomKByMetric(t: VectorTable, d: Distance, q: Vector, k: nat): (r: seq<Pair>)
    ensures |r| == |t.vectors|
    ensures forall pos :: 0 <= pos < |t.vectors| ==> Pair(d.vectorDist(q, t.vectors[pos]), pos) in r
    ensures forall x :: x in r ==> x.id < |t.vectors| && x.score == d.vectorDist(q, t.vectors[x.id])
    ensures forall i, j :: 0 <= i < j < |r| ==> BottomOrder(r[i], r[j])
  {
    var drained := SortDesc(ReversedKeys(t, d, q));
    UnwrapOrder(drained);
    UnwrapComplete(t, d, q);
    UnwrapSound(t, d, q);
    Unwrap(drained)
  }
}

=== FILE: vector_table.dfy ===
/** `VectorTable` storage: a loose buffer of recent vectors and, when chunking
    is on, sealed blocks of exactly `ChunkSize` rows each. */
module Table {
  import opened Errors
  import opened Matrices

  /** `CHUNK_SIZE`. */
  const ChunkSize: nat := 4096

  datatype VectorTable = VectorTable(dim: nat, chunking: bool, vectors: seq<Vector>, chunks: seq<Matrix>)
  {
    /** What `new` establishes and every insert path keeps: all stored vectors
        have length `dim`, every sealed block is `ChunkSize x dim`, a chunking
        table holds fewer than `ChunkSize` loose vectors, and a table without
        chunking has no blocks. */
    predicate Valid() {
      && AllHaveDim(vectors, dim)
      && (forall j :: 0 <= j < |chunks| ==> chunks[j].rows == ChunkSize && chunks[j].cols == dim)
      && (chunking ==> |vectors| < ChunkSize)
      && (!chunking ==> chunks == [])
    }
  }

  /** The rows of the blocks, block after block. */
  function AllRows(ms: seq<Matrix>): seq<Vector>
  {
    if |ms| == 0 then [] else AllRows(ms[..|ms| - 1]) + Rows(ms[|ms| - 1])
  }

  /** Every vector the table stores, in global-id order: the sealed rows
      followed by the loose buffer. */
  function History(t: VectorTable): seq<Vector>
  {
    AllRows(t.chunks) + t.vectors
  }

  lemma AllRowsAppend(ms: seq<Matrix>, m: Matrix)
    ensures AllRows(ms + [m]) == AllRows(ms) + Rows(m)
  {
    assert (ms + [m])[..|ms|] == ms;
  }

  lemma {:induction false} AllRowsLength(ms: seq<Matrix>)
    requires forall j :: 0 <= j < |ms| ==> ms[j].rows == ChunkSize
    ensures |AllRows(ms)| == |ms| * ChunkSize
  {
    if |ms| > 0 {
      AllRowsLength(ms[..|ms| - 1]);
    }
  }

  function New(dim: nat, chunking: bool): (t: VectorTable)
    ensures t.Valid() && t.dim == dim && t.chunking == chunking
    ensures History(t) == [] && t.chunks == []
  {
    VectorTable(dim, chunking, [], [])
  }

  /** `create_chunk(n, drain)`: a block whose rows are the first `n` loose
      vectors; with `drain` those vectors leave the loose buffer, without it
      the table is left as it was. */
  function CreateChunk(t: VectorTable, n: nat, drain: bool): (r: (VectorTable, Matrix))
    requires AllHaveDim(t.vectors, t.dim) && n <= |t.vectors|
    ensures r.1.rows == n && r.1.cols == t.dim
    ensures Rows(r.1) == t.vectors[..n]
    ensures drain ==> r.0 == t.(vectors := t.vectors[n..])
    ensures !drain ==> r.0 == t
  {
    var m := FromRows(t.vectors[..n], t.dim);
    RowsOfFromRows(t.vectors[..n], t.dim);
    if drain then (t.(vectors := t.vectors[n..]), m) else (t, m)
  }

  /** One iteration of `condense_vectors`: drain the first `chunkSize` loose
      vectors into a block and push it onto the block list. */
  function SealOne(t: VectorTable, chunkSize: nat): (r: VectorTable)
    requires AllHaveDim(t.vectors, t.dim) && chunkSize <= |t.vectors|
    ensures r.dim == t.dim && r.chunking == t.chunking
    ensures r.vectors == t.vectors[chunkSize..]
    ensures |r.chunks| == |t.chunks| + 1 && r.chunks[..|t.chunks|] == t.chunks
    ensures r.chunks[|t.chunks|].rows == chunkSize && r.chunks[|t.chunks|].cols == t.dim
    ensures History(r) == History(t)
  {
    var drained := CreateChunk(t, chunkSize, true).0;
    var block := CreateChunk(t, chunkSize, true).1;
    var r := drained.(chunks := drained.chunks + [block]);
    AllRowsAppend(t.chunks, block);
    assert t.vectors == t.vectors[..chunkSize] + t.vectors[chunkSize..];
    assert r.chunks[..|t.chunks|] == t.chunks;
    r
  }

  /** `condense_vectors(chunkSize)`: seal blocks of `chunkSize` loose vectors
      until fewer than `chunkSize` remain. Sealing only moves vectors: the
      stored sequence, in order, is unchanged, and earlier blocks stay put. */
  function Condense(t: VectorTable, chunkSize: nat): (r: VectorTable)
    requires chunkSize > 0 && AllHaveDim(t.vectors, t.dim)
    ensures r.dim == t.dim && r.chunking == t.chunking
    ensures |r.vectors| < chunkSize && AllHaveDim(r.vectors, r.dim)
    ensures |t.chunks| <= |r.chunks| && r.chunks[..|t.chunks|] == t.chunks
    ensures forall j :: |t.chunks| <= j < |r.chunks| ==> r.chunks[j].rows == chunkSize && r.chunks[j].cols == t.dim
    ensures History(r) == History(t)
    ensures |t.vectors| < chunkSize ==> r == t
    decreases |t.vectors|
  {
    if |t.vectors| >= chunkSize then
      var next := SealOne(t, chunkSize);
      var r := Condense(next, chunkSize);
      assert r.chunks[..|t.chunks|] == r.chunks[..|next.chunks|][..|t.chunks|];
      r
    else
      t
  }

  /** `insert`: a vector of the wrong length is rejected; otherwise it is
      appended and, with chunking, full blocks are sealed. */
  function Insert(t: VectorTable, v: Vector): (r: Result<VectorTable>)
    requires t.Valid()
    ensures r.Err? <==> |v| != t.dim
    ensures r.Err? ==> r.error == DimensionMismatch
    ensures r.Ok? ==> r.value.Valid() && r.value.dim == t.dim && r.value.chunking == t.chunking
    ensures r.Ok? ==> History(r.value) == History(t) + [v]
    ensures r.Ok? ==> |t.chunks| <= |r.value.chunks| && r.value.chunks[..|t.chunks|] == t.chunks
    ensures r.Ok? && !t.chunking ==> r.value.vectors == t.vectors + [v] && r.value.chunks == []
  {
    if |v| != t.dim then Err(DimensionMismatch)
    else
      var appended := t.(vectors := t.vectors + [v]);
      Ok(if t.chunking then Condense(appended, ChunkSize) else appended)
  }

  /** `insert_many`: every vector is checked before anything is stored, so a
      batch with one bad vector is rejected as a whole. */
  function InsertMany(t: VectorTable, vs: seq<Vector>): (r: Result<VectorTable>)
    requires t.Valid()
    ensures r.Err? <==> exists i :: 0 <= i < |vs| && |vs[i]| != t.dim
    ensures r.Err? ==> r.error == DimensionMismatch
    ensures r.Ok? ==> r.value.Valid() && r.value.dim == t.dim && r.value.chunking == t.chunking
    ensures r.Ok? ==> History(r.value) == History(t) + vs
    ensures r.Ok? ==> |t.chunks| <= |r.value.chunks| && r.value.chunks[..|t.chunks|] == t.chunks
    ensures r.Ok? && !t.chunking ==> r.value.vectors == t.vectors + vs && r.value.chunks == []
  {
    if !AllHaveDim(vs, t.dim) then Err(DimensionMismatch)
    else
      var appended := t.(vectors := t.vectors + vs);
      assert History(appended) == History(t) + vs;
      Ok(if t.chunking then Condense(appended, ChunkSize) else appended)
  }
}
